=== FILE: README.md ===
# Scoring core of a vision-language-model puzzle benchmark

This project models, in Dafny, how the benchmark scripts turn a puzzle
definition and a model's answer into a score. It covers three scripts.

- `main_grounding_dominik.py` builds ground truth from a puzzle in two forms:
  - a label set: the non-empty `part_type` values joined with commas, or `"NONE"`;
  - a labelled box: the first part's type and its `[x, y, x+w, y+h]`.

  It decodes the model's JSON answer `{"bbox": [...], "label": ...}` and
  rescales the 0..1000 coordinates to a 640 x 441 frame. It scores two
  labelled boxes by intersection over union, but only when their labels
  agree.
- `benchmark_grounding/grounding.py` compares the label-set ground truth
  with the stripped answer by exact string equality.
- `main_understanding.py` chooses one of three system prompts. It reads
  the `solution` of a puzzle, upper-cases the answer, turns spaces into
  underscores and strips it, then compares the two exactly.

Layout: `wrappers.dfy` (Option, Result), `json.dfy` (the decoded JSON
inputs), `text.dfy` (`str.strip`), `label_sets.dfy` (the label-set loop
shared by both grounding scripts), `geometry.dfy` (boxes and IoU). Then
one module per script: `grounding_dominik.dfy`, `grounding.dfy` and
`understanding.dfy`.

`strip()` removes exactly the characters Python's `str.isspace` accepts
(`Text.IsSpace`): the ASCII whitespace, the separators `\x1c`-`\x1f`,
NEL, the no-break space and the Unicode space and line separators.

In these cases the code behaves differently from what one might expect;
the model follows the code:
- A `bbox` that is not a four-element list raises `ValueError`
  (main_grounding_dominik.py:136-137). That error escapes, because only
  `JSONDecodeError` is caught (main_grounding_dominik.py:152). It does not
  give the absent result.
- An answer that is JSON but not an object raises `AttributeError` at the
  `.get` call (main_grounding_dominik.py:132).
- A single part whose type is literally `NONE` gives the same label set
  as a puzzle with no named parts (main_grounding_dominik.py:70).
- Two zero-area boxes with equal labels divide by zero
  (main_grounding_dominik.py:175; see Findings).
- In the understanding benchmark, spaces become `_` before stripping
  (main_understanding.py:102-104), so leading and trailing spaces survive
  as `_`.

## Model

| member | source | states |
|---|---|---|
| `LabelSets.KeptTypes` | main_grounding_dominik.py:66-69 | at most one name per part and never an empty name: parts without a truthy `part_type` are skipped, not rendered empty |
| `LabelSets.Join` | main_grounding_dominik.py:70 | `",".join(names)`; for comma-free names the text holds exactly one comma per name after the first |
| `LabelSets.LabelSet` | main_grounding_dominik.py:65-70 | the value `parse_ground_truth` returns: the joined kept names, or `"NONE"`; never empty, and it begins with the first kept name |
| `LabelSets.KeptTypesAppend` | main_grounding_dominik.py:66-69 | keeping names distributes over concatenation of the parts list, so file order is kept |
| `LabelSets.KeptTypesEmpty` | main_grounding_dominik.py:67-68 | nothing is kept exactly when no part has a non-empty `part_type` |
| `LabelSets.KeptTypesMembers` | main_grounding_dominik.py:66-69 | a name is kept exactly when some part has it as its non-empty `part_type` |
| `LabelSets.JoinEnds` | main_grounding_dominik.py:70 | the joined text starts with the first name and ends with the last, so no separator is added at either end |
| `LabelSets.JoinHasSeparator` | main_grounding_dominik.py:70 | two or more names always produce a comma |
| `LabelSets.SplitJoin` | main_grounding_dominik.py:70 | splitting on commas recovers comma-free names: `",".join` and `str.split(",")` are inverse |
| `LabelSets.LabelSetIsNone` | main_grounding_dominik.py:70 | the result is `"NONE"` iff nothing is kept or the only kept name is `NONE` |
| `LabelSets.NoNamedPartsGivesNone` | main_grounding_dominik.py:65-70 | without a truthy `part_type` the result is `"NONE"` |
| `LabelSets.LabelSetRoundTrip` | main_grounding_dominik.py:65-70 | splitting the label set on commas gives the kept names in file order |
| `LabelSets.LabelSetExamples` | main_grounding_dominik.py:40-61 | the single BASKETBALL part gives `"BASKETBALL"`; A, unnamed, B gives `"A,B"`; no parts gives `"NONE"` |
| `LabelSets.ParseLabelSet` | main_grounding_dominik.py:65-70 | the append loop followed by the join returns exactly the label set of the parts |
| `GroundingDominik.ParseGroundTruth` | main_grounding_dominik.py:63-71 | the label-set ground truth of the loaded puzzle (a missing `parts` reads as empty) |
| `GroundingDominik.ParseGroundTruthBbox` | main_grounding_dominik.py:73-92 | absent `(None, [])` iff there is no part or the first part lacks x, y, width_1 or height_1; otherwise the first part's type with a box at (x, y) of width w and height h |
| `GroundingDominik.GroundTruthBboxFirstPartOnly` | main_grounding_dominik.py:77-80 | parts after the first never change the box ground truth |
| `GroundingDominik.GroundTruthBboxWellFormed` | main_grounding_dominik.py:90-92 | a part of non-negative size gives a box in corner order whose area is w times h |
| `GroundingDominik.GroundTruthBboxExample` | main_grounding_dominik.py:74-92 | x=186, y=108, w=h=32 gives `[186,108,218,140]`; a missing width gives the absent result |
| `GroundingDominik.ParseModelResponse` | main_grounding_dominik.py:122-123 | the stripped answer has no whitespace at either end and is no longer than the input |
| `GroundingDominik.Rescale` | main_grounding_dominik.py:146-149 | the pixel is n·dim/1000 truncated toward zero: floor for n ≥ 0, minus the floor of the magnitude for n < 0 |
| `GroundingDominik.RescaleInFrame` | main_grounding_dominik.py:144-149 | a coordinate in 0..1000 lands in 0..dim |
| `GroundingDominik.RescaleMonotone` | main_grounding_dominik.py:146-149 | rescaling keeps the order of coordinates |
| `GroundingDominik.RescaleExamples` | main_grounding_dominik.py:126-127 | 500 maps to 320 of 640 and to 220 of 441; 1000 maps to 441 |
| `GroundingDominik.ParseModelResponseBbox` | main_grounding_dominik.py:125-155 | undecodable text, a missing `bbox`, or a missing or empty `label` give the absent result; a non-list or wrong-length `bbox` raises ValueError; a non-object raises AttributeError; otherwise the label is passed through and the four coordinates are rescaled, x by 640 and y by 441 |
| `GroundingDominik.ResponseBboxInFrame` | main_grounding_dominik.py:144-151 | ordered coordinates in 0..1000 give an ordered box inside the 640 x 441 frame |
| `GroundingDominik.EvaluateResponseIsEquality` | main_grounding_dominik.py:157-158 | exact string comparison: reflexive, symmetric, case-sensitive |
| `GroundingDominik.Gated` | main_grounding_dominik.py:164-167 | the two gates before the IoU: labels equal (`None` equals `None`) and both boxes non-empty; an absent result never passes |
| `GroundingDominik.EvaluateResponseBbox` | main_grounding_dominik.py:160-176 | 0.0 when the labels differ or either box is empty; otherwise the IoU, which lies in [0,1] for boxes in corner order; callers must avoid short boxes and a zero union, where the source raises |
| `GroundingDominik.AbsentScoresZero` | main_grounding_dominik.py:164-167 | an absent result scores 0.0 against anything, including another absent result |
| `GroundingDominik.UndecodableResponseScoresZero` | main_grounding_dominik.py:152-155 | an answer that is not JSON becomes the absent result and scores 0.0 |
| `GroundingDominik.ScoreSymmetric` | main_grounding_dominik.py:168-176 | swapping ground truth and answer leaves the score unchanged |
| `GroundingDominik.IdenticalScoresOne` | main_grounding_dominik.py:168-176 | an answer identical to a ground truth whose box is in corner order and of positive area scores 1.0 (a reversed box such as `[10,10,0,0]` would score 0.0) |
| `GroundingDominik.DisjointScoresZero` | main_grounding_dominik.py:168-176 | equal labels on non-overlapping boxes with a non-zero union score 0.0 (a zero union raises instead; see Findings) |
| `GroundingDominik.DegenerateBoxesDivideByZero` | main_grounding_dominik.py:172-175 | parser outputs exist that pass both gates with a zero union, where the source divides by zero |
| `GroundingDominik.EvaluateResponseBboxGuarded` | main_grounding_dominik.py:172-175 | agrees with the source wherever its division is defined, scores 0.0 on a zero union, and always lies in [0,1] for ordered boxes |
| `GroundingDominik.ParsedPairScoreInUnitRange` | main_grounding_dominik.py:172-175 | under the zero-union guard of `EvaluateResponseBboxGuarded`, a puzzle part of non-negative size against a labelled in-range ordered answer always scores in [0,1]; the unguarded source can raise on such inputs (see Findings) |
| `GroundingDominik.PositiveGroundTruthScoreInUnitRange` | main_grounding_dominik.py:160-176 | for the scorer as written: a puzzle part of positive width and height against a labelled in-range ordered answer gives a positive union, so the division is defined and the score lies in [0,1] |
| `Geometry.Area` | main_grounding_dominik.py:173-174 | `(x_max - x_min) * (y_max - y_min)`, never negative for a box in corner order |
| `Geometry.InterArea` | main_grounding_dominik.py:168-172 | the clamped overlap `max(0, xB - xA) * max(0, yB - yA)`: never negative, and zero for boxes that do not overlap |
| `Geometry.UnionArea` | main_grounding_dominik.py:175 | `boxAArea + boxBArea - interArea`: at most the sum of the two areas, and for ordered boxes at least the larger one |
| `Geometry.Iou` | main_grounding_dominik.py:175 | the ratio: multiplied by the union it gives back the intersection |
| `Geometry.InterWithinBoth` | main_grounding_dominik.py:168-174 | the intersection area is non-negative and at most the area of either box |
| `Geometry.IouInUnitRange` | main_grounding_dominik.py:168-175 | for ordered boxes a non-zero union is positive and the IoU lies in [0,1] |
| `Geometry.IouSymmetric` | main_grounding_dominik.py:168-175 | union and IoU do not depend on argument order |
| `Geometry.IouIdentical` | main_grounding_dominik.py:168-175 | a box in corner order of positive area has IoU 1 with itself |
| `Geometry.IouDisjoint` | main_grounding_dominik.py:168-175 | non-overlapping boxes have intersection 0 and IoU 0 |
| `Text.Strip` | benchmark_grounding/grounding.py:99-100 | `strip()` leaves no whitespace at either end and never lengthens the text |
| `Text.StripAt` | benchmark_grounding/grounding.py:99-100 | the kept text is the input's characters from the end of the leading whitespace on, unchanged |
| `Text.StripCut` | benchmark_grounding/grounding.py:99-100 | every character cut off on either side is whitespace |
| `Text.StripPadded` | benchmark_grounding/grounding.py:99-100 | whitespace around a text without edge whitespace is removed and the text is returned exactly |
| `Text.StripUnchanged` | benchmark_grounding/grounding.py:99-100 | a text without edge whitespace is returned unchanged |
| `Text.StripIdempotent` | benchmark_grounding/grounding.py:99-100 | stripping twice equals stripping once |
| `Grounding.ParseGroundTruth` | benchmark_grounding/grounding.py:63-71 | the label-set ground truth of the loaded puzzle |
| `Grounding.ParseModelResponse` | benchmark_grounding/grounding.py:99-100 | the parsed answer has no whitespace at either end and is no longer than the input |
| `Grounding.ParseModelResponseKeepsText` | benchmark_grounding/grounding.py:99-100 | only surrounding whitespace is removed; the text between is returned as it is |
| `Grounding.ParseModelResponseIdempotent` | benchmark_grounding/grounding.py:99-100 | parsing twice equals parsing once |
| `Grounding.EvaluateResponseIsEquality` | benchmark_grounding/grounding.py:102-103 | exact comparison: reflexive, symmetric, transitive, case-sensitive |
| `Text.SameText` | benchmark_grounding/grounding.py:102-103 | the `ground_truth == response` of `evaluate_response`: true exactly when both texts have the same length and agree character by character, with no normalisation. The same comparison appears at main_grounding_dominik.py:157-158 and main_understanding.py:107-108, and all three scripts delegate to this one definition |
| `Grounding.PaddedAnswerScores` | benchmark_grounding/grounding.py:99-103 | the ground truth surrounded by whitespace is a correct answer |
| `Grounding.EdgeSpaceGroundTruthNeverScores` | benchmark_grounding/grounding.py:99-103 | a ground truth with whitespace at an end can never be matched |
| `Understanding.GetSystemPrompt` | main_understanding.py:20-26 | the with-instruct prompt iff `"with_instruct"`, the without-instruct prompt iff `"without_instruct"`, the state-identification prompt for every other input |
| `Understanding.AllowedCategoriesSelectDistinctPrompts` | main_understanding.py:17-26 | the three allowed categories select the three prompts |
| `Understanding.ParseGroundTruth` | main_understanding.py:67-69 | the `solution` value verbatim; a missing key is a KeyError, not a sentinel |
| `Understanding.UpperChar` | main_understanding.py:102 | `upper()` on one character: never lower-case after; an ASCII lower-case letter becomes a different letter in A-Z; anything else is unchanged |
| `Understanding.Upper` | main_understanding.py:102 | `response.upper()`: same length, no lower-case letter left, every other character unchanged |
| `Understanding.ReplaceSpaces` | main_understanding.py:102 | `.replace(" ", "_")`: same length, no space left, each space becomes `_`, everything else unchanged |
| `Understanding.Normalise` | main_understanding.py:102 | `response.upper().replace(" ", "_")`: same length, with no lower-case letter and no space |
| `Understanding.NormCharFacts` | main_understanding.py:102 | a normalised character is never lower-case or a space, and is whitespace iff it was non-space whitespace |
| `Understanding.NormaliseAt` | main_understanding.py:102 | upper-casing then replacing spaces keeps the length and maps each character on its own |
| `Understanding.NormaliseSpaces` | main_understanding.py:102 | after normalisation a character is whitespace iff it was non-space whitespace |
| `Understanding.ParseModelResponse` | main_understanding.py:101-104 | the answer has no lower-case letter, no space and no whitespace at either end |
| `Understanding.ParseModelResponseSpec` | main_understanding.py:101-104 | the answer is a stretch of the input with every character normalised, and only non-space whitespace is cut off at either end |
| `Understanding.LeadingSpaceBecomesUnderscore` | main_understanding.py:102-104 | a leading space is not stripped but becomes a leading `_` |
| `Understanding.LengthPreserved` | main_understanding.py:102-104 | without non-space whitespace at either end nothing is cut and the length is kept |
| `Understanding.ParseModelResponseIdempotent` | main_understanding.py:101-104 | normalising twice equals normalising once |
| `Understanding.LeadingSpaceExample` | main_understanding.py:102-104 | `" ball"` becomes `"_BALL"` |
| `Understanding.TrailingNewlineExample` | main_understanding.py:102-104 | `"Soccer ball\n"` becomes `"SOCCER_BALL"` |
| `Understanding.UnmatchableGroundTruth` | main_understanding.py:107-108 | a ground truth with a lower-case letter or a space never equals a parsed answer |
| `Understanding.NormalisedAnswerScores` | main_understanding.py:101-108 | an answer that normalises to the ground truth scores true, whatever non-space whitespace surrounds it |

## Left out

- File reading, `json.load` and `json.loads` are left out. The model starts from the decoded values (`Json.Puzzle`, `Json.ModelJson`), and undecodable text is the `Undecodable` case.
- `encode_image`, `get_api_key` and `utils.py` are left out: they do file I/O, base64 encoding and environment updates.
- `generate_model_response` in all three scripts is left out: it makes an HTTP chat-completion call.
- The `__main__` blocks are left out: they parse arguments, check that paths exist and print.
- `calculate_benchmark_results` is left out: its body is only `pass`.
- The `print` diagnostics in `parse_model_response_bbox` are left out.
- The system-prompt texts are opaque constants, modelled as the three tags of `Understanding.SystemPrompt`.
- The point/click action parser is left out: the scripts contain none. Only the UI-TARS prompt's action format mentions clicks.
- JSON values of the wrong type are not modelled:
  - non-integer coordinates or sizes;
  - a `part_type`, `label` or `solution` that is not a string (for example a truthy number);
  - a `parts`, `position` or `size` that is `null` or not an object.

  In Python these raise `TypeError`/`AttributeError` or pass odd values through.
- `GroundingDominik.Rescale`: computes the exact truncation of n·dim/1000. The source truncates the IEEE product `(n / 1000.0) * dim`. For coordinates of modest size the two can differ by rounding at exact pixel boundaries. For very large coordinates the float error can move the result further. A value too large for a double raises `OverflowError` when it is converted; the model does not produce that error.
- `GroundingDominik.EvaluateResponseBbox`: computes the IoU exactly over the reals, where the source uses floating-point division. For very large areas the float error can move the result further. A union or intersection too large for a double raises `OverflowError` at `float(...)` or at the division (line 175); the model does not produce that error. Its precondition also excludes the two inputs on which the source raises:
  - a non-empty box with fewer than four entries, where lines 168-171 raise `IndexError`;
  - a zero union, where line 175 raises `ZeroDivisionError`. This is the Finding below; `EvaluateResponseBboxGuarded` handles it.
- `Understanding.ParseModelResponse`: upper-cases only the ASCII letters a-z, through `Understanding.Upper`. Python's Unicode `str.upper()` also maps other letters, and some of them change length (`ß` becomes `SS`).
- `Understanding.Upper`: the claim that every character outside a-z is unchanged holds only for this ASCII upper-casing. Python maps `é` to `É`.
- `Understanding.UpperChar`: maps a-z only and leaves all other characters unchanged. Python's `upper()` also maps other letters, such as `é`.

## Findings

| source | as written | input that shows it | evidently intended | confidence | as-written member | corrected member |
|---|---|---|---|---|---|---|
| main_grounding_dominik.py:175 | after the label and emptiness gates the IoU divides by the union area with no guard | ground truth part BASKETBALL at (186,108) with width_1 0 and height_1 32; answer `{"bbox": [300,245,301,317], "label": "BASKETBALL"}`, whose x-coordinates both truncate to pixel 192: both boxes have zero area, the union is 0 and `ZeroDivisionError` is raised | a pair without overlap, degenerate boxes included, scores 0.0 like any other non-overlapping pair | medium; not executed | `GroundingDominik.DegenerateBoxesDivideByZero` | `GroundingDominik.EvaluateResponseBboxGuarded` |

=== FILE: geometry.dfy ===
/**
 * Labelled boxes and their intersection-over-union.  A box is the list
 * `[x_min, y_min, x_max, y_max]` in pixels; only its first four entries
 * are ever read.
 */
module Geometry {
  import opened Wrappers

  /**
   * The `(label, bbox)` pair both box parsers return.  The absent
   * result is `(None, [])`.
   */
  datatype Detection = Detection(partLabel: Option<string>, box: seq<int>)

  const Absent: Detection := Detection(None, [])

  function Max(a: int, b: int): (m: int) { if a < b then b else a }

  function Min(a: int, b: int): (m: int) { if a < b then a else b }

  /** A box whose corners are in order on both axes. */
  predicate WellFormed(b: seq<int>) {
    |b| >= 4 && b[0] <= b[2] && b[1] <= b[3]
  }

  /** The area `(x_max - x_min) * (y_max - y_min)`; never negative for a box in order. */
  function Area(b: seq<int>): (r: int)
    requires |b| >= 4
    ensures WellFormed(b) ==> r >= 0
  {
    (b[2] - b[0]) * (b[3] - b[1])
  }

  /** `max(0, xB - xA) * max(0, yB - yA)` over the overlap of the two boxes. */
  function InterArea(a: seq<int>, b: seq<int>): (r: int)
    requires |a| >= 4 && |b| >= 4
    ensures r >= 0
    ensures Disjoint(a, b) ==> r == 0
  {
    Max(0, Min(a[2], b[2]) - Max(a[0], b[0])) * Max(0, Min(a[3], b[3]) - Max(a[1], b[1]))
  }

  /**
   * `boxAArea + boxBArea - interArea`: never more than the two areas
   * together and, for boxes in order, never less than the larger one.
   */
  function UnionArea(a: seq<int>, b: seq<int>): (u: int)
    requires |a| >= 4 && |b| >= 4
    ensures u <= Area(a) + Area(b)
    ensures WellFormed(a) && WellFormed(b) ==> Max(Area(a), Area(b)) <= u
  {
    var u := Area(a) + Area(b) - InterArea(a, b);
    assert WellFormed(a) && WellFormed(b) ==> Max(Area(a), Area(b)) <= u by {
      if WellFormed(a) && WellFormed(b) {
        InterWithinBoth(a, b);
      }
    }
    u
  }

  /** The boxes do not overlap: one lies wholly left of, right of, above or below the other. */
  predicate Disjoint(a: seq<int>, b: seq<int>)
    requires |a| >= 4 && |b| >= 4
  {
    a[2] <= b[0] || b[2] <= a[0] || a[3] <= b[1] || b[3] <= a[1]
  }

  /** Intersection over union, computed exactly over the reals. */
  function Iou(a: seq<int>, b: seq<int>): (r: real)
    requires |a| >= 4 && |b| >= 4 && UnionArea(a, b) != 0
    ensures r * UnionArea(a, b) as real == InterArea(a, b) as real
  {
    InterArea(a, b) as real / UnionArea(a, b) as real
  }

  lemma MulMonotone(p: int, q: int, pp: int, qq: int)
    requires 0 <= p <= pp && 0 <= q <= qq
    ensures 0 <= p * q <= pp * qq
  {
    assert p * q <= pp * q by {
      assert (pp - p) * q >= 0;
    }
    assert pp * q <= pp * qq by {
      assert pp * (qq - q) >= 0;
    }
  }

  /** The overlap is never negative and never larger than either box. */
  lemma InterWithinBoth(a: seq<int>, b: seq<int>)
    requires WellFormed(a) && WellFormed(b)
    ensures 0 <= InterArea(a, b) <= Area(a)
    ensures InterArea(a, b) <= Area(b)
  {
    var w := Max(0, Min(a[2], b[2]) - Max(a[0], b[0]));
    var h := Max(0, Min(a[3], b[3]) - Max(a[1], b[1]));
    MulMonotone(w, h, a[2] - a[0], a[3] - a[1]);
    MulMonotone(w, h, b[2] - b[0], b[3] - b[1]);
  }

  /** For boxes in order, a union that is not zero is positive and the ratio lies in [0, 1]. */
  lemma IouInUnitRange(a: seq<int>, b: seq<int>)
    requires |a| >= 4 && |b| >= 4 && UnionArea(a, b) != 0
    ensures WellFormed(a) && WellFormed(b) ==> UnionArea(a, b) > 0 && 0.0 <= Iou(a, b) <= 1.0
  {
    if !(WellFormed(a) && WellFormed(b)) {
      return;
    }
    InterWithinBoth(a, b);
    RatioInUnitRange(InterArea(a, b) as real, UnionArea(a, b) as real, Iou(a, b));
  }

  lemma RatioInUnitRange(i: real, u: real, r: real)
    requires 0.0 <= i <= u && u > 0.0 && r * u == i
    ensures 0.0 <= r <= 1.0
  {
    assert r == i / u;
  }

  /** The score does not depend on which box is the ground truth. */
  lemma IouSymmetric(a: seq<int>, b: seq<int>)
    requires |a| >= 4 && |b| >= 4 && UnionArea(a, b) != 0
    ensures UnionArea(b, a) == UnionArea(a, b)
    ensures Iou(b, a) == Iou(a, b)
  {
  }

  /** A box of positive area compared with itself scores 1. */
  lemma IouIdentical(a: seq<int>)
    requires WellFormed(a) && Area(a) > 0
    ensures UnionArea(a, a) == Area(a)
    ensures Iou(a, a) == 1.0
  {
    var w, h := a[2] - a[0], a[3] - a[1];
    assert Max(0, Min(a[2], a[2]) - Max(a[0], a[0])) == w;
    assert Max(0, Min(a[3], a[3]) - Max(a[1], a[1])) == h;
    assert InterArea(a, a) == Area(a);
    var r := Area(a) as real;
    assert r / r == 1.0;
  }

  /** Boxes that do not overlap score 0. */
  lemma IouDisjoint(a: seq<int>, b: seq<int>)
    requires |a| >= 4 && |b| >= 4 && UnionArea(a, b) != 0
    requires Disjoint(a, b)
    ensures InterArea(a, b) == 0
    ensures Iou(a, b) == 0.0
  {
  }
}

=== FILE: grounding.dfy ===
/**
 * The scoring core of `benchmark_grounding/grounding.py`: the label-set
 * ground truth, the stripped model answer and exact comparison.
 */
module Grounding {
  import opened Json
  import Text
  import LabelSets

  /** `parse_ground_truth` after the JSON file is loaded. */
  method ParseGroundTruth(puzzle: Puzzle) returns (r: string)
    ensures r == LabelSets.LabelSet(puzzle.parts)
  {
    r := LabelSets.ParseLabelSet(puzzle.parts);
  }

  /** `parse_model_response`: `response.strip()`. */
  function ParseModelResponse(response: string): (r: string)
    ensures Text.NoEdgeSpace(r) && |r| <= |response|
  {
    Text.Strip(response)
  }

  /** Only surrounding whitespace is removed: the text between is returned as it is. */
  lemma ParseModelResponseKeepsText(before: string, text: string, after: string)
    requires Text.AllSpace(before) && Text.AllSpace(after) && Text.NoEdgeSpace(text)
    ensures ParseModelResponse(before + text + after) == text
  {
    Text.StripPadded(before, text, after);
  }

  /** Parsing an already parsed answer changes nothing. */
  lemma ParseModelResponseIdempotent(response: string)
    ensures ParseModelResponse(ParseModelResponse(response)) == ParseModelResponse(response)
  {
    Text.StripIdempotent(response);
  }

  /** `evaluate_response`: the exact comparison `Text.SameText`. */
  function EvaluateResponse(groundTruth: string, response: string): bool {
    Text.SameText(groundTruth, response)
  }

  lemma EvaluateResponseIsEquality(a: string, b: string, c: string)
    ensures EvaluateResponse(a, a)
    ensures EvaluateResponse(a, b) == EvaluateResponse(b, a)
    ensures EvaluateResponse(a, b) && EvaluateResponse(b, c) ==> EvaluateResponse(a, c)
    ensures !EvaluateResponse("SOCCER_BALL", "soccer_ball")
  {
    assert "SOCCER_BALL"[0] != "soccer_ball"[0];
  }

  /** An answer that is the ground truth surrounded by whitespace scores true. */
  lemma PaddedAnswerScores(parts: seq<Part>, before: string, after: string)
    requires Text.AllSpace(before) && Text.AllSpace(after)
    requires Text.NoEdgeSpace(LabelSets.LabelSet(parts))
    ensures EvaluateResponse(LabelSets.LabelSet(parts), ParseModelResponse(before + LabelSets.LabelSet(parts) + after))
  {
    Text.StripPadded(before, LabelSets.LabelSet(parts), after);
  }

  /** A ground truth with whitespace at an end (a part type such as " BALL") is never matched. */
  lemma EdgeSpaceGroundTruthNeverScores(groundTruth: string, response: string)
    requires !Text.NoEdgeSpace(groundTruth)
    ensures !EvaluateResponse(groundTruth, ParseModelResponse(response))
  {
  }
}

=== FILE: grounding_dominik.dfy ===
/**
 * The scoring core of `main_grounding_dominik.py`: label-set and
 * bounding-box ground truth from a puzzle, the model's JSON box answer
 * rescaled to a 640 x 441 frame, and the label-gated IoU score.
 */
module GroundingDominik {
  import opened Wrappers
  import opened Json
  import opened Geometry
  import Text
  import LabelSets

  /** The fixed frame the model's 0..1000 coordinates are mapped onto. */
  const PngWidth: nat := 640
  const PngHeight: nat := 441

  /** `parse_ground_truth` after the JSON file is loaded. */
  method ParseGroundTruth(puzzle: Puzzle) returns (r: string)
    ensures r == LabelSets.LabelSet(puzzle.parts)
  {
    r := LabelSets.ParseLabelSet(puzzle.parts);
  }

  /** All four of `x`, `y`, `width_1`, `height_1` are present. */
  predicate HasGeometry(p: Part) {
    p.x.Some? && p.y.Some? && p.width1.Some? && p.height1.Some?
  }

  /**
   * `parse_ground_truth_bbox` after the JSON file is loaded: the first
   * part's type and its box, or the absent result when there is no
   * part or the first part lacks a coordinate or a size.
   */
  function ParseGroundTruthBbox(puzzle: Puzzle): (d: Detection)
    ensures d.box == [] ==> d == Absent
    ensures d.box != [] <==> puzzle.parts != [] && HasGeometry(puzzle.parts[0])
    ensures d.box != [] ==>
      var p := puzzle.parts[0];
      && d.partLabel == p.partType
      && |d.box| == 4
      && d.box[0] == p.x.value && d.box[1] == p.y.value
      && d.box[2] - d.box[0] == p.width1.value
      && d.box[3] - d.box[1] == p.height1.value
  {
    if puzzle.parts == [] then Absent
    else
      var p := puzzle.parts[0];
      if !HasGeometry(p) then Absent
      else Detection(p.partType, [p.x.value, p.y.value, p.x.value + p.width1.value, p.y.value + p.height1.value])
  }

  /** Parts after the first never influence the box ground truth. */
  lemma GroundTruthBboxFirstPartOnly(a: Puzzle, b: Puzzle)
    requires a.parts != [] && b.parts != [] && a.parts[0] == b.parts[0]
    ensures ParseGroundTruthBbox(a) == ParseGroundTruthBbox(b)
  {
  }

  /** A first part of non-negative size gives a box in order whose area is width times height. */
  lemma GroundTruthBboxWellFormed(puzzle: Puzzle)
    requires puzzle.parts != [] && HasGeometry(puzzle.parts[0])
    requires puzzle.parts[0].width1.value >= 0 && puzzle.parts[0].height1.value >= 0
    ensures WellFormed(ParseGroundTruthBbox(puzzle).box)
    ensures Area(ParseGroundTruthBbox(puzzle).box) == puzzle.parts[0].width1.value * puzzle.parts[0].height1.value
  {
  }

  /** The docstring's example: a 32 x 32 basketball at (186, 108). */
  lemma GroundTruthBboxExample()
    ensures ParseGroundTruthBbox(Puzzle([Part(Some("BASKETBALL"), Some(186), Some(108), Some(32), Some(32))], None))
         == Detection(Some("BASKETBALL"), [186, 108, 218, 140])
    ensures ParseGroundTruthBbox(Puzzle([Part(Some("BASKETBALL"), Some(186), Some(108), None, Some(32))], None)) == Absent
  {
  }

  /** `parse_model_response`: surrounding whitespace removed, nothing else changed. */
  function ParseModelResponse(response: string): (r: string)
    ensures Text.NoEdgeSpace(r) && |r| <= |response|
  {
    Text.Strip(response)
  }

  /** `int((n / 1000.0) * dim)`: a 0..1000 coordinate scaled to `dim` pixels, truncated toward zero. */
  function Rescale(n: int, dim: nat): (px: int)
    ensures 0 <= n ==> 0 <= px && px * 1000 <= n * dim < (px + 1) * 1000
    ensures n < 0 ==> px <= 0 && -px * 1000 <= -n * dim < (-px + 1) * 1000
  {
    if n < 0 then -((-n) * dim / 1000) else n * dim / 1000
  }

  /** A coordinate in 0..1000 lands inside the frame. */
  lemma RescaleInFrame(n: int, dim: nat)
    requires 0 <= n <= 1000
    ensures 0 <= Rescale(n, dim) <= dim
  {
    assert n * dim <= 1000 * dim;
  }

  /** Rescaling keeps the order of coordinates, so a box in order stays in order. */
  lemma RescaleMonotone(n: int, m: int, dim: nat)
    requires n <= m
    ensures Rescale(n, dim) <= Rescale(m, dim)
  {
    assert n * dim <= m * dim by {
      assert (m - n) * dim >= 0;
    }
  }

  /** 500 is the middle of both axes: 320 of 640 and 220 of 441 (220.5 truncated). */
  lemma RescaleExamples()
    ensures Rescale(500, PngWidth) == 320
    ensures Rescale(500, PngHeight) == 220
    ensures Rescale(1000, PngHeight) == PngHeight
  {
  }

  predicate IsFourList(v: BboxValue): (four: bool) {
    v.Coordinates? && |v.items| == 4
  }

  /**
   * `parse_model_response_bbox` after `json.loads`.  Text that is not
   * JSON and an answer without `bbox` give the absent result; a `bbox`
   * that is not a four-element list raises `ValueError` (not caught); an
   * answer that is not a JSON object raises `AttributeError` at `.get`;
   * a missing or empty `label` gives the absent result; otherwise the
   * label is kept and x-coordinates are rescaled to the frame's width,
   * y-coordinates to its height.
   */
  function ParseModelResponseBbox(j: ModelJson): (r: Result<Detection, Exception>)
    ensures r.Failure? <==> j.NotAnObject? || (j.Object? && j.bbox.Some? && !IsFourList(j.bbox.value))
    ensures r.Failure? ==> r.error == (if j.NotAnObject? then AttributeError else ValueError)
    ensures r == Success(Absent) <==>
      || j.Undecodable?
      || (j.Object? && (j.bbox.None? || (IsFourList(j.bbox.value) && !LabelSets.IsTruthy(j.partLabel))))
    ensures r.Success? && r.value != Absent ==>
      && j.Object? && j.bbox.Some? && IsFourList(j.bbox.value)
      && LabelSets.IsTruthy(j.partLabel) && r.value.partLabel == j.partLabel
      && var n := j.bbox.value.items;
      && |r.value.box| == 4
      && r.value.box[0] == Rescale(n[0], PngWidth) && r.value.box[1] == Rescale(n[1], PngHeight)
      && r.value.box[2] == Rescale(n[2], PngWidth) && r.value.box[3] == Rescale(n[3], PngHeight)
  {
    match j
    case Undecodable => Success(Absent)
    case NotAnObject => Failure(AttributeError)
    case Object(bbox, partLabel) =>
      if bbox.None? then Success(Absent)
      else if !IsFourList(bbox.value) then Failure(ValueError)
      else if !LabelSets.IsTruthy(partLabel) then Success(Absent)
      else
        var n := bbox.value.items;
        Success(Detection(partLabel, [Rescale(n[0], PngWidth), Rescale(n[1], PngHeight),
                                      Rescale(n[2], PngWidth), Rescale(n[3], PngHeight)]))
  }

  /** Coordinates in 0..1000 and in order give a box in order inside the 640 x 441 frame. */
  lemma ResponseBboxInFrame(j: ModelJson)
    requires j.Object? && j.bbox.Some? && IsFourList(j.bbox.value) && LabelSets.IsTruthy(j.partLabel)
    requires forall k | 0 <= k < 4 :: 0 <= j.bbox.value.items[k] <= 1000
    requires j.bbox.value.items[0] <= j.bbox.value.items[2] && j.bbox.value.items[1] <= j.bbox.value.items[3]
    ensures ParseModelResponseBbox(j).Success?
    ensures var b := ParseModelResponseBbox(j).value.box;
      WellFormed(b) && 0 <= b[0] && b[2] <= PngWidth && 0 <= b[1] && b[3] <= PngHeight
  {
    var n := j.bbox.value.items;
    RescaleMonotone(n[0], n[2], PngWidth);
    RescaleMonotone(n[1], n[3], PngHeight);
    RescaleInFrame(n[0], PngWidth);
    RescaleInFrame(n[2], PngWidth);
    RescaleInFrame(n[1], PngHeight);
    RescaleInFrame(n[3], PngHeight);
  }

  /** `evaluate_response`: the exact comparison `Text.SameText`. */
  function EvaluateResponse(groundTruth: string, response: string): bool {
    Text.SameText(groundTruth, response)
  }

  lemma EvaluateResponseIsEquality(a: string, b: string)
    ensures EvaluateResponse(a, a)
    ensures EvaluateResponse(a, b) == EvaluateResponse(b, a)
    ensures !EvaluateResponse("BASKETBALL", "Basketball")
  {
    assert "BASKETBALL"[1] != "Basketball"[1];
  }

  /** The pair gets a geometric score only when the labels agree and neither box is empty. */
  predicate Gated(gt: Detection, resp: Detection)
    ensures Gated(gt, resp) ==> gt.partLabel == resp.partLabel
    ensures gt == Absent || resp == Absent ==> !Gated(gt, resp)
  {
    gt.partLabel == resp.partLabel && gt.box != [] && resp.box != []
  }

  /**
   * `evaluate_response_bbox`.  Past the label and emptiness gates the
   * source indexes four entries of each box and divides by the union, so
   * it raises unless both boxes have four entries and the union is not
   * zero: callers must avoid those inputs.
   */
  function EvaluateResponseBbox(gt: Detection, resp: Detection): (score: real)
    requires Gated(gt, resp) ==> |gt.box| >= 4 && |resp.box| >= 4 && UnionArea(gt.box, resp.box) != 0
    ensures !Gated(gt, resp) ==> score == 0.0
    ensures Gated(gt, resp) ==> score == Iou(gt.box, resp.box)
    ensures Gated(gt, resp) && WellFormed(gt.box) && WellFormed(resp.box) ==> 0.0 <= score <= 1.0
  {
    if gt.partLabel != resp.partLabel then 0.0
    else if gt.box == [] || resp.box == [] then 0.0
    else
      IouInUnitRange(gt.box, resp.box);
      Iou(gt.box, resp.box)
  }

  /** An absent result scores zero against anything, including another absent result. */
  lemma AbsentScoresZero(d: Detection)
    ensures EvaluateResponseBbox(d, Absent) == 0.0
    ensures EvaluateResponseBbox(Absent, d) == 0.0
    ensures EvaluateResponseBbox(Absent, Absent) == 0.0
  {
  }

  /** A model answer that is not JSON scores zero against any ground truth. */
  lemma UndecodableResponseScoresZero(gt: Detection)
    ensures ParseModelResponseBbox(Undecodable) == Success(Absent)
    ensures EvaluateResponseBbox(gt, ParseModelResponseBbox(Undecodable).value) == 0.0
  {
  }

  /** Swapping ground truth and answer does not change the score. */
  lemma ScoreSymmetric(gt: Detection, resp: Detection)
    requires Gated(gt, resp) ==> |gt.box| >= 4 && |resp.box| >= 4 && UnionArea(gt.box, resp.box) != 0
    ensures Gated(resp, gt) ==> |gt.box| >= 4 && |resp.box| >= 4 && UnionArea(resp.box, gt.box) != 0
    ensures EvaluateResponseBbox(resp, gt) == EvaluateResponseBbox(gt, resp)
  {
    if Gated(gt, resp) {
      IouSymmetric(gt.box, resp.box);
    }
  }

  /** An answer identical to a ground truth of positive area scores 1. */
  lemma IdenticalScoresOne(d: Detection)
    requires WellFormed(d.box) && Area(d.box) > 0
    ensures EvaluateResponseBbox(d, d) == 1.0
  {
    IouIdentical(d.box);
  }

  /** Equal labels on boxes that do not overlap score 0. */
  lemma DisjointScoresZero(gt: Detection, resp: Detection)
    requires Gated(gt, resp) && |gt.box| >= 4 && |resp.box| >= 4 && UnionArea(gt.box, resp.box) != 0
    requires Disjoint(gt.box, resp.box)
    ensures EvaluateResponseBbox(gt, resp) == 0.0
  {
    IouDisjoint(gt.box, resp.box);
  }

  /**
   * As written, two zero-area boxes with the same label pass both gates
   * and then divide by a zero union.  Here a ground-truth part of width
   * zero meets an answer whose x-coordinates 300 and 301 both truncate
   * to pixel 192, so `EvaluateResponseBbox` cannot be applied.
   */
  lemma DegenerateBoxesDivideByZero()
    ensures var gt := ParseGroundTruthBbox(Puzzle([Part(Some("BASKETBALL"), Some(186), Some(108), Some(0), Some(32))], None));
      var r := ParseModelResponseBbox(Object(Some(Coordinates([300, 245, 301, 317])), Some("BASKETBALL")));
      && r.Success? && Gated(gt, r.value)
      && |gt.box| == 4 && |r.value.box| == 4
      && UnionArea(gt.box, r.value.box) == 0
  {
  }

  /**
   * The score with the zero-union case answered by 0.0, as for any other
   * pair without overlap.  Wherever the source's division is defined the
   * two agree; for boxes in order the score always lies in [0, 1].
   */
  function EvaluateResponseBboxGuarded(gt: Detection, resp: Detection): (score: real)
    requires Gated(gt, resp) ==> |gt.box| >= 4 && |resp.box| >= 4
    ensures Gated(gt, resp) && UnionArea(gt.box, resp.box) != 0 ==> score == EvaluateResponseBbox(gt, resp)
    ensures !Gated(gt, resp) || UnionArea(gt.box, resp.box) == 0 ==> score == 0.0
    ensures Gated(gt, resp) && WellFormed(gt.box) && WellFormed(resp.box) ==> 0.0 <= score <= 1.0
  {
    if Gated(gt, resp) && UnionArea(gt.box, resp.box) == 0 then 0.0
    else EvaluateResponseBbox(gt, resp)
  }

  /**
   * End to end, under the zero-union guard of `EvaluateResponseBboxGuarded`:
   * a puzzle whose first part has a non-negative size and a labelled
   * answer with coordinates in 0..1000 and in order always get a score in
   * [0, 1].  The unguarded scorer may divide by zero on such inputs (see
   * `DegenerateBoxesDivideByZero`); `PositiveGroundTruthScoreInUnitRange`
   * covers it.
   */
  lemma ParsedPairScoreInUnitRange(puzzle: Puzzle, j: ModelJson)
    requires puzzle.parts != [] && HasGeometry(puzzle.parts[0])
    requires puzzle.parts[0].width1.value >= 0 && puzzle.parts[0].height1.value >= 0
    requires j.Object? && j.bbox.Some? && IsFourList(j.bbox.value) && LabelSets.IsTruthy(j.partLabel)
    requires forall k | 0 <= k < 4 :: 0 <= j.bbox.value.items[k] <= 1000
    requires j.bbox.value.items[0] <= j.bbox.value.items[2] && j.bbox.value.items[1] <= j.bbox.value.items[3]
    ensures ParseModelResponseBbox(j).Success?
    ensures var s := EvaluateResponseBboxGuarded(ParseGroundTruthBbox(puzzle), ParseModelResponseBbox(j).value);
      0.0 <= s <= 1.0
  {
    GroundTruthBboxWellFormed(puzzle);
    ResponseBboxInFrame(j);
  }

  /**
   * End to end for the scorer as written: once the first part has a
   * positive width and height the union is never zero, so the division
   * of `evaluate_response_bbox` is defined and the score lies in [0, 1].
   */
  lemma PositiveGroundTruthScoreInUnitRange(puzzle: Puzzle, j: ModelJson)
    requires puzzle.parts != [] && HasGeometry(puzzle.parts[0])
    requires puzzle.parts[0].width1.value > 0 && puzzle.parts[0].height1.value > 0
    requires j.Object? && j.bbox.Some? && IsFourList(j.bbox.value) && LabelSets.IsTruthy(j.partLabel)
    requires forall k | 0 <= k < 4 :: 0 <= j.bbox.value.items[k] <= 1000
    requires j.bbox.value.items[0] <= j.bbox.value.items[2] && j.bbox.value.items[1] <= j.bbox.value.items[3]
    ensures ParseModelResponseBbox(j).Success?
    ensures UnionArea(ParseGroundTruthBbox(puzzle).box, ParseModelResponseBbox(j).value.box) > 0
    ensures var s := EvaluateResponseBbox(ParseGroundTruthBbox(puzzle), ParseModelResponseBbox(j).value);
      0.0 <= s <= 1.0
  {
    var p := puzzle.parts[0];
    GroundTruthBboxWellFormed(puzzle);
    ResponseBboxInFrame(j);
    MulMonotone(1, 1, p.width1.value, p.height1.value);
  }
}

=== FILE: json.dfy ===
/**
 * The decoded JSON documents the scripts read: puzzle definitions and
 * the model's bounding-box answer.  Decoding itself is not modelled;
 * these datatypes are what `json.load` / `json.loads` hand back.
 */
module Json {
  import opened Wrappers

  /**
   * One entry of a puzzle's `parts` list.  Every field is optional,
   * as `dict.get` makes it: `position.x`, `position.y`, `size.width_1`
   * and `size.height_1` are flattened into the part, and a missing
   * `position` or `size` object reads as all of its fields missing.
   */
  datatype Part = Part(
    partType: Option<string>,
    x: Option<int>,
    y: Option<int>,
    width1: Option<int>,
    height1: Option<int>)

  /**
   * A puzzle definition.  A missing `parts` key reads as the empty list
   * (`data.get("parts", [])`); `solution` is the top-level answer used by
   * the understanding benchmark.
   */
  datatype Puzzle = Puzzle(parts: seq<Part>, solution: Option<string>)

  /** The value of the `bbox` key when it is present and not `null`. */
  datatype BboxValue = NotAList | Coordinates(items: seq<int>)

  /**
   * The result of `json.loads` on the model's answer: text that is not
   * JSON, a JSON value that is not an object, or an object whose `bbox`
   * and `label` keys (`partLabel` here, since `label` is a Dafny keyword) were looked up with `dict.get` (absent or `null`
   * is `None`).
   */
  datatype ModelJson =
    | Undecodable
    | NotAnObject
    | Object(bbox: Option<BboxValue>, partLabel: Option<string>)

  /** The Python exceptions the modelled code lets escape. */
  datatype Exception = KeyError | ValueError | AttributeError
}

=== FILE: label_sets.dfy ===
/**
 * The label-set ground truth of the grounding benchmarks: the
 * `part_type` of every part that has a non-empty one, in file order,
 * joined with commas, or the sentinel "NONE" when no part has one.
 */
module LabelSets {
  import opened Wrappers
  import opened Json

  /** `if part_type:` for a string-valued `part_type`: present and non-empty. */
  predicate IsTruthy(t: Option<string>) {
    t.Some? && t.value != ""
  }

  /** The part types the loop keeps, in the order the parts appear. */
  function KeptTypes(parts: seq<Part>): (names: seq<string>)
    ensures |names| <= |parts|
    ensures forall i | 0 <= i < |names| :: names[i] != ""
  {
    if parts == [] then []
    else
      var last := parts[|parts| - 1];
      KeptTypes(parts[..|parts| - 1]) + (if IsTruthy(last.partType) then [last.partType.value] else [])
  }

  /**
   * `",".join(names)`: for names without commas the text holds exactly
   * one comma per name after the first.
   */
  function Join(names: seq<string>): (s: string)
    ensures names != [] && (forall i | 0 <= i < |names| :: ',' !in names[i]) ==> multiset(s)[','] == |names| - 1
  {
    if names == [] then ""
    else if |names| == 1 then names[0]
    else names[0] + "," + Join(names[1..])
  }

  /** `s.split(",")`: the comma-separated fields of `s`, empty fields included. */
  function Split(s: string): (fields: seq<string>)
    ensures |fields| >= 1
  {
    if s == [] then [""]
    else
      var rest := Split(s[1..]);
      if s[0] == ',' then [""] + rest else [[s[0]] + rest[0]] + rest[1..]
  }

  /**
   * The value `parse_ground_truth` returns for a puzzle with these parts:
   * never empty, and it begins with the first kept name.
   */
  function LabelSet(parts: seq<Part>): (r: string)
    ensures r != ""
    ensures KeptTypes(parts) != [] ==> |KeptTypes(parts)[0]| <= |r| && r[..|KeptTypes(parts)[0]|] == KeptTypes(parts)[0]
  {
    var names := KeptTypes(parts);
    if names == [] then "NONE"
    else
      JoinEnds(names);
      Join(names)
  }

  /** Keeping part types distributes over concatenation: the order of the file is kept. */
  lemma {:induction false} KeptTypesAppend(a: seq<Part>, b: seq<Part>)
    ensures KeptTypes(a + b) == KeptTypes(a) + KeptTypes(b)
  {
    if b == [] {
      assert a + b == a;
    } else {
      assert (a + b)[..|a + b| - 1] == a + b[..|b| - 1];
      assert (a + b)[|a + b| - 1] == b[|b| - 1];
      KeptTypesAppend(a, b[..|b| - 1]);
    }
  }

  /** Nothing is kept exactly when no part has a non-empty `part_type`. */
  lemma {:induction false} KeptTypesEmpty(parts: seq<Part>)
    ensures KeptTypes(parts) == [] <==> forall i | 0 <= i < |parts| :: !IsTruthy(parts[i].partType)
  {
    if parts != [] {
      var init := parts[..|parts| - 1];
      KeptTypesEmpty(init);
      assert forall i | 0 <= i < |init| :: init[i] == parts[i];
    }
  }

  /** A kept type belongs to some part, and every non-empty type of a part is kept. */
  lemma {:induction false} KeptTypesMembers(parts: seq<Part>)
    ensures forall n :: n in KeptTypes(parts) <==>
      exists i | 0 <= i < |parts| :: IsTruthy(parts[i].partType) && parts[i].partType.value == n
  {
    if parts != [] {
      var init := parts[..|parts| - 1];
      KeptTypesMembers(init);
      assert forall i | 0 <= i < |init| :: init[i] == parts[i];
    }
  }

  /** The joined text starts with the first name and ends with the last: no separator is added at either end. */
  lemma {:induction false} JoinEnds(names: seq<string>)
    requires names != []
    ensures var s := Join(names);
      |names[0]| <= |s| && s[..|names[0]|] == names[0] &&
      |names[|names| - 1]| <= |s| && s[|s| - |names[|names| - 1]|..] == names[|names| - 1]
  {
    if |names| > 1 {
      JoinEnds(names[1..]);
    }
  }

  /** Joining two or more names always puts a comma in the text. */
  lemma {:induction false} JoinHasSeparator(names: seq<string>)
    requires |names| >= 2
    ensures ',' in Join(names)
  {
    assert Join(names)[|names[0]|] == ',';
  }

  lemma {:induction false} SplitAfterField(a: string, t: string)
    requires ',' !in a
    ensures Split(a + t) == [a + Split(t)[0]] + Split(t)[1..]
  {
    if a == [] {
      assert a + t == t;
      assert a + Split(t)[0] == Split(t)[0];
      assert Split(t) == [Split(t)[0]] + Split(t)[1..];
    } else {
      assert (a + t)[1..] == a[1..] + t;
      assert (a + t)[0] == a[0] != ',';
      SplitAfterField(a[1..], t);
      var rest := Split(a[1..] + t);
      assert rest[0] == a[1..] + Split(t)[0] && rest[1..] == Split(t)[1..];
      assert [a[0]] + (a[1..] + Split(t)[0]) == a + Split(t)[0];
    }
  }

  /** Splitting on commas recovers the joined names when none of them contains a comma. */
  lemma {:induction false} SplitJoin(names: seq<string>)
    requires names != []
    requires forall i | 0 <= i < |names| :: ',' !in names[i]
    ensures Split(Join(names)) == names
  {
    if |names| == 1 {
      assert names[0] + "" == names[0];
      SplitAfterField(names[0], "");
    } else {
      SplitJoin(names[1..]);
      assert names[0] + "," + Join(names[1..]) == names[0] + ("," + Join(names[1..]));
      SplitAfterField(names[0], "," + Join(names[1..]));
      assert ("," + Join(names[1..]))[1..] == Join(names[1..]);
      assert Split("," + Join(names[1..])) == [""] + names[1..];
      assert names[0] + "" == names[0];
      assert names == [names[0]] + names[1..];
    }
  }

  /**
   * The result is the sentinel exactly when nothing is kept or the only
   * kept type is itself "NONE": a single part named NONE cannot be told
   * apart from a puzzle without named parts.
   */
  lemma LabelSetIsNone(parts: seq<Part>)
    ensures LabelSet(parts) == "NONE" <==> KeptTypes(parts) == [] || KeptTypes(parts) == ["NONE"]
  {
    var names := KeptTypes(parts);
    if |names| >= 2 {
      JoinHasSeparator(names);
      assert ',' !in "NONE";
    }
  }

  /** Without named parts the result is "NONE". */
  lemma NoNamedPartsGivesNone(parts: seq<Part>)
    requires forall i | 0 <= i < |parts| :: !IsTruthy(parts[i].partType)
    ensures LabelSet(parts) == "NONE"
  {
    KeptTypesEmpty(parts);
  }

  /** Splitting the result on commas gives back the kept types in file order. */
  lemma LabelSetRoundTrip(parts: seq<Part>)
    requires KeptTypes(parts) != []
    requires forall i | 0 <= i < |KeptTypes(parts)| :: ',' !in KeptTypes(parts)[i]
    ensures Split(LabelSet(parts)) == KeptTypes(parts)
  {
    SplitJoin(KeptTypes(parts));
  }

  /** The single-part example of the docstring, and an unnamed part skipped between two named ones. */
  lemma LabelSetExamples()
    ensures LabelSet([Part(Some("BASKETBALL"), Some(186), Some(108), Some(32), Some(32))]) == "BASKETBALL"
    ensures LabelSet([Part(Some("A"), None, None, None, None), Part(Some(""), None, None, None, None),
                      Part(Some("B"), None, None, None, None)]) == "A,B"
    ensures LabelSet([]) == "NONE"
  {
    var q := [Part(Some("BASKETBALL"), Some(186), Some(108), Some(32), Some(32))];
    assert q[..0] == [];
    assert KeptTypes(q) == ["BASKETBALL"];
    UnnamedPartSkipped();
  }

  lemma UnnamedPartSkipped()
    ensures KeptTypes([Part(Some("A"), None, None, None, None), Part(Some(""), None, None, None, None),
                       Part(Some("B"), None, None, None, None)]) == ["A", "B"]
    ensures Join(["A", "B"]) == "A,B"
  {
    var p := [Part(Some("A"), None, None, None, None), Part(Some(""), None, None, None, None),
              Part(Some("B"), None, None, None, None)];
    assert p[..2][..1] == [p[0]];
    assert KeptTypes(p[..2]) == ["A"];
    assert Join(["A", "B"]) == "A" + "," + "B";
  }

  /**
   * The loop of `parse_ground_truth`: walk the parts, append every
   * non-empty `part_type`, then join the kept names or answer "NONE".
   */
  method ParseLabelSet(parts: seq<Part>) returns (r: string)
    ensures r == LabelSet(parts)
  {
    var partNames: seq<string> := [];
    for i := 0 to |parts|
      invariant partNames == KeptTypes(parts[..i])
    {
      assert parts[..i + 1][..i] == parts[..i];
      var partType := parts[i].partType;
      if IsTruthy(partType) {
        partNames := partNames + [partType.value];
      }
    }
    assert parts[..|parts|] == parts;
    r := if partNames != [] then Join(partNames) else "NONE";
  }
}

=== FILE: text.dfy ===
/** Python's `str.strip()` with no argument, and the facts the scorers rely on. */
module Text {

  /** Python's `str.isspace` for a single character. */
  predicate IsSpace(c: char) {
    || c == ' '
    || ('\t' <= c <= '\r')
    || ('\U{1C}' <= c <= '\U{1F}')
    || c == '\U{85}' || c == '\U{A0}' || c == '\U{1680}'
    || ('\U{2000}' <= c <= '\U{200A}')
    || c == '\U{2028}' || c == '\U{2029}' || c == '\U{202F}' || c == '\U{205F}' || c == '\U{3000}'
  }

  predicate AllSpace(s: string) {
    forall i | 0 <= i < |s| :: IsSpace(s[i])
  }

  /** Neither end of `s` is whitespace. */
  predicate NoEdgeSpace(s: string) {
    s == [] || (!IsSpace(s[0]) && !IsSpace(s[|s| - 1]))
  }

  /**
   * Python's `==` on two strings, the comparison every scorer ends with:
   * equal length and the same character at every position, with no case
   * folding or other normalisation.
   */
  predicate SameText(a: string, b: string): (same: bool)
    ensures same <==> |a| == |b| && forall k | 0 <= k < |b| :: a[k] == b[k]
  {
    a == b
  }

  /** The length of the whitespace run at the front of `s`. */
  function LeadingSpaceCount(s: string): (n: nat)
    ensures n <= |s|
    ensures forall k | 0 <= k < n :: IsSpace(s[k])
    ensures n == |s| || !IsSpace(s[n])
  {
    if s != [] && IsSpace(s[0]) then 1 + LeadingSpaceCount(s[1..]) else 0
  }

  /** The length of the whitespace run at the back of `s`. */
  function TrailingSpaceCount(s: string): (n: nat)
    ensures n <= |s|
    ensures forall k | |s| - n <= k < |s| :: IsSpace(s[k])
    ensures n == |s| || !IsSpace(s[|s| - 1 - n])
  {
    if s != [] && IsSpace(s[|s| - 1]) then 1 + TrailingSpaceCount(s[..|s| - 1]) else 0
  }

  /** `s.strip()`: drop the leading whitespace, then the trailing whitespace of what is left. */
  function Strip(s: string): (r: string)
    ensures NoEdgeSpace(r) && |r| <= |s|
  {
    var t := s[LeadingSpaceCount(s)..];
    t[..|t| - TrailingSpaceCount(t)]
  }

  /** What `strip` keeps is the slice of `s` after the leading whitespace, character by character. */
  lemma StripAt(s: string)
    ensures LeadingSpaceCount(s) + |Strip(s)| <= |s|
    ensures forall k | 0 <= k < |Strip(s)| :: Strip(s)[k] == s[LeadingSpaceCount(s) + k]
  {
  }

  /** Everything `strip` cuts off, on either side, is whitespace. */
  lemma StripCut(s: string)
    ensures LeadingSpaceCount(s) + |Strip(s)| <= |s|
    ensures forall k | 0 <= k < LeadingSpaceCount(s) :: IsSpace(s[k])
    ensures forall k | LeadingSpaceCount(s) + |Strip(s)| <= k < |s| :: IsSpace(s[k])
  {
    var i := LeadingSpaceCount(s);
    var t := s[i..];
    forall k | i + |Strip(s)| <= k < |s| ensures IsSpace(s[k]) {
      assert s[k] == t[k - i];
    }
  }

  lemma {:induction false} LeadingPastSpaces(a: string, u: string)
    requires AllSpace(a)
    requires u == [] || !IsSpace(u[0])
    ensures LeadingSpaceCount(a + u) == |a|
  {
    if a != [] {
      assert (a + u)[1..] == a[1..] + u;
      LeadingPastSpaces(a[1..], u);
    }
  }

  lemma {:induction false} TrailingPastSpaces(u: string, b: string)
    requires AllSpace(b)
    requires u == [] || !IsSpace(u[|u| - 1])
    ensures TrailingSpaceCount(u + b) == |b|
  {
    if b != [] {
      assert (u + b)[..|u + b| - 1] == u + b[..|b| - 1];
      TrailingPastSpaces(u, b[..|b| - 1]);
    }
  }

  /**
   * The converse of Strip's contract: whatever whitespace surrounds a
   * text without edge whitespace, stripping gives back exactly that text.
   */
  lemma StripPadded(a: string, t: string, b: string)
    requires AllSpace(a) && AllSpace(b) && NoEdgeSpace(t)
    ensures Strip(a + t + b) == t
  {
    var s := a + t + b;
    if t == [] {
      assert s == (a + b) + [];
      LeadingPastSpaces(a + b, []);
    } else {
      assert s == a + (t + b);
      LeadingPastSpaces(a, t + b);
      assert s[|a|..] == t + b;
      TrailingPastSpaces(t, b);
    }
  }

  /** A text without edge whitespace is left as it is. */
  lemma StripUnchanged(t: string)
    requires NoEdgeSpace(t)
    ensures Strip(t) == t
  {
    assert LeadingSpaceCount(t) == 0;
    assert TrailingSpaceCount(t) == 0;
  }

  /** Stripping twice gives the same text as stripping once. */
  lemma StripIdempotent(s: string)
    ensures Strip(Strip(s)) == Strip(s)
  {
    StripUnchanged(Strip(s));
  }
}

=== FILE: understanding.dfy ===
/**
 * The scoring core of `main_understanding.py`: the choice of system
 * prompt, the `solution` ground truth, the enum-style normalisation of
 * the model's answer and exact comparison.
 */
module Understanding {
  import opened Wrappers
  import opened Json
  import Text

  /** The three prompt texts, each an opaque constant of its own module. */
  datatype SystemPrompt = PropertyIdentWithInstruct | PropertyIdentWithoutInstruct | StateIdent

  const AllowedCategories: seq<string> := ["with_instruct", "without_instruct", "state_ident"]

  /** `get_system_prompt`: the first two categories pick their own prompt, anything else the state prompt. */
  function GetSystemPrompt(category: string): (p: SystemPrompt)
    ensures p == PropertyIdentWithInstruct <==> category == AllowedCategories[0]
    ensures p == PropertyIdentWithoutInstruct <==> category == AllowedCategories[1]
    ensures p == StateIdent <==> category != AllowedCategories[0] && category != AllowedCategories[1]
  {
    if category == AllowedCategories[0] then PropertyIdentWithInstruct
    else if category == AllowedCategories[1] then PropertyIdentWithoutInstruct
    else StateIdent
  }

  /** The three allowed categories select three different prompts. */
  lemma AllowedCategoriesSelectDistinctPrompts()
    ensures GetSystemPrompt(AllowedCategories[0]) == PropertyIdentWithInstruct
    ensures GetSystemPrompt(AllowedCategories[1]) == PropertyIdentWithoutInstruct
    ensures GetSystemPrompt(AllowedCategories[2]) == StateIdent
  {
    assert AllowedCategories[2][0] != AllowedCategories[0][0];
    assert AllowedCategories[2][0] != AllowedCategories[1][0];
  }

  /** `parse_ground_truth` after the JSON file is loaded: `data["solution"]`, a `KeyError` when absent. */
  function ParseGroundTruth(puzzle: Puzzle): (r: Result<string, Exception>)
    ensures r.Success? <==> puzzle.solution.Some?
    ensures r.Success? ==> r.value == puzzle.solution.value
    ensures r.Failure? ==> r.error == KeyError
  {
    match puzzle.solution
    case Some(s) => Success(s)
    case None => Failure(KeyError)
  }

  predicate IsLower(c: char) {
    'a' <= c <= 'z'
  }

  /** `str.upper` on one character, over the ASCII letters. */
  function UpperChar(c: char): (u: char)
    ensures !IsLower(u)
    ensures IsLower(c) ==> 'A' <= u <= 'Z' && u != c
    ensures !IsLower(c) ==> u == c
  {
    if IsLower(c) then (c as int - 32) as char else c
  }

  /** One character after `.upper().replace(" ", "_")`. */
  function NormChar(c: char): (n: char) {
    if c == ' ' then '_' else UpperChar(c)
  }

  /** `str.upper`, over the ASCII letters: no lower-case letter is left and nothing else changes. */
  function Upper(s: string): (r: string)
    ensures |r| == |s|
    ensures forall k | 0 <= k < |r| :: !IsLower(r[k])
    ensures forall k | 0 <= k < |r| :: !IsLower(s[k]) ==> r[k] == s[k]
  {
    seq(|s|, i requires 0 <= i < |s| => UpperChar(s[i]))
  }

  /** `str.replace(" ", "_")`: no space is left and every other character stays where it was. */
  function ReplaceSpaces(s: string): (r: string)
    ensures |r| == |s|
    ensures forall k | 0 <= k < |r| :: r[k] != ' '
    ensures forall k | 0 <= k < |r| :: s[k] != ' ' ==> r[k] == s[k]
    ensures forall k | 0 <= k < |r| :: s[k] == ' ' ==> r[k] == '_'
  {
    seq(|s|, i requires 0 <= i < |s| => if s[i] == ' ' then '_' else s[i])
  }

  /** `response.upper().replace(" ", "_")`, before stripping. */
  function Normalise(s: string): (r: string)
    ensures |r| == |s|
    ensures forall k | 0 <= k < |r| :: !IsLower(r[k]) && r[k] != ' '
  {
    ReplaceSpaces(Upper(s))
  }

  /** Whitespace that is still whitespace once spaces have become underscores. */
  predicate IsStrippable(c: char) {
    Text.IsSpace(c) && c != ' '
  }

  /** A normalised character is never lower-case or a space, and is whitespace exactly when it was strippable. */
  lemma NormCharFacts(c: char)
    ensures !IsLower(NormChar(c)) && NormChar(c) != ' '
    ensures Text.IsSpace(NormChar(c)) <==> IsStrippable(c)
  {
  }

  lemma NormaliseAt(s: string)
    ensures |Normalise(s)| == |s|
    ensures forall k | 0 <= k < |s| :: Normalise(s)[k] == NormChar(s[k])
    ensures forall k | 0 <= k < |s| :: !IsLower(Normalise(s)[k]) && Normalise(s)[k] != ' '
  {
    forall k | 0 <= k < |s|
      ensures !IsLower(Normalise(s)[k]) && Normalise(s)[k] != ' '
    {
      NormCharFacts(s[k]);
    }
  }

  lemma NormaliseSpaces(s: string)
    ensures |Normalise(s)| == |s|
    ensures forall k | 0 <= k < |s| :: Text.IsSpace(Normalise(s)[k]) <==> IsStrippable(s[k])
  {
    forall k | 0 <= k < |s|
      ensures Text.IsSpace(Normalise(s)[k]) <==> IsStrippable(s[k])
    {
      NormCharFacts(s[k]);
    }
  }

  /** `parse_model_response`: upper-case, spaces to underscores, then strip. */
  function ParseModelResponse(response: string): (r: string)
    ensures forall k | 0 <= k < |r| :: !IsLower(r[k]) && r[k] != ' '
    ensures Text.NoEdgeSpace(r)
  {
    NormaliseAt(response);
    Text.StripAt(Normalise(response));
    Text.Strip(Normalise(response))
  }

  /**
   * The answer is a stretch of the input with every character
   * normalised, and what is cut off at either end is whitespace other
   * than the space: spaces, inside or at the ends, all become `_`.
   */
  lemma {:induction false} ParseModelResponseSpec(s: string)
    ensures var r, i := ParseModelResponse(s), Text.LeadingSpaceCount(Normalise(s));
      && i + |r| <= |s|
      && (forall k | 0 <= k < |r| :: r[k] == NormChar(s[i + k]))
      && (forall k | 0 <= k < i :: IsStrippable(s[k]))
      && (forall k | i + |r| <= k < |s| :: IsStrippable(s[k]))
  {
    NormalisedStripKept(s);
    ParseModelResponseCut(s);
  }

  lemma NormalisedStripKept(s: string)
    ensures var x := Normalise(s);
      var r, i := Text.Strip(x), Text.LeadingSpaceCount(x);
      && i + |r| <= |s|
      && (forall k | 0 <= k < |r| :: r[k] == NormChar(s[i + k]))
  {
    var x := Normalise(s);
    NormaliseAt(s);
    Text.StripAt(x);
    StretchOfNormalised(s, x, Text.Strip(x), Text.LeadingSpaceCount(x));
  }

  /** A stretch of the normalised text is the normalised stretch of the input. */
  lemma StretchOfNormalised(s: string, x: string, r: string, i: nat)
    requires |x| == |s| && forall k | 0 <= k < |s| :: x[k] == NormChar(s[k])
    requires i + |r| <= |x| && forall k | 0 <= k < |r| :: r[k] == x[i + k]
    ensures forall k | 0 <= k < |r| :: r[k] == NormChar(s[i + k])
  {
  }

  lemma ParseModelResponseCut(s: string)
    ensures var r, i := ParseModelResponse(s), Text.LeadingSpaceCount(Normalise(s));
      && (forall k | 0 <= k < i :: IsStrippable(s[k]))
      && (forall k | i + |r| <= k < |s| :: IsStrippable(s[k]))
  {
    NormaliseSpaces(s);
    Text.StripAt(Normalise(s));
    Text.StripCut(Normalise(s));
  }

  /** A leading space is not stripped: it becomes a leading `_`. */
  lemma LeadingSpaceBecomesUnderscore(s: string)
    requires s != [] && s[0] == ' '
    ensures ParseModelResponse(s) != [] && ParseModelResponse(s)[0] == '_'
  {
    ParseModelResponseSpec(s);
  }

  /** Without non-space whitespace at either end nothing is stripped and the length is kept. */
  lemma LengthPreserved(s: string)
    requires s == [] || (!IsStrippable(s[0]) && !IsStrippable(s[|s| - 1]))
    ensures ParseModelResponse(s) == Normalise(s)
    ensures |ParseModelResponse(s)| == |s|
  {
    var x := Normalise(s);
    if s != [] {
      NormCharFacts(s[0]);
      NormCharFacts(s[|s| - 1]);
      assert x[0] == NormChar(s[0]) && x[|x| - 1] == NormChar(s[|s| - 1]);
    }
    Text.StripUnchanged(x);
  }

  /** Normalising an already normalised answer changes nothing. */
  lemma ParseModelResponseIdempotent(s: string)
    ensures ParseModelResponse(ParseModelResponse(s)) == ParseModelResponse(s)
  {
    var r := ParseModelResponse(s);
    assert Normalise(r) == r;
    Text.StripUnchanged(r);
  }

  lemma LeadingSpaceNormalised()
    ensures Normalise(" ball") == "_BALL"
  {
    NormaliseAt(" ball");
    assert NormChar(' ') == '_' && NormChar('b') == 'B' && NormChar('a') == 'A' && NormChar('l') == 'L';
  }

  lemma LeadingSpaceNotStripped()
    ensures ParseModelResponse(" ball") == Normalise(" ball")
  {
    var s := " ball";
    assert s[0] == ' ' && s[4] == 'l';
    LengthPreserved(s);
  }

  /** The leading space of " ball" survives as an underscore. */
  lemma LeadingSpaceExample()
    ensures ParseModelResponse(" ball") == "_BALL"
  {
    LeadingSpaceNormalised();
    LeadingSpaceNotStripped();
  }

  lemma TrailingNewlineExample()
    ensures ParseModelResponse("Soccer ball\n") == "SOCCER_BALL"
  {
    var text := "Soccer ball";
    NormaliseAt(text);
    assert Normalise(text) == "SOCCER_BALL";
    assert "Soccer ball\n" == [] + text + "\n";
    assert IsStrippable('\n');
    NormalisedAnswerScores("SOCCER_BALL", [], text, "\n");
  }

  /** `evaluate_response`: the exact comparison `Text.SameText`. */
  function EvaluateResponse(groundTruth: string, response: string): bool {
    Text.SameText(groundTruth, response)
  }

  /** A ground truth with a lower-case letter or a space can never be matched by a parsed answer. */
  lemma UnmatchableGroundTruth(groundTruth: string, response: string)
    requires exists k | 0 <= k < |groundTruth| :: IsLower(groundTruth[k]) || groundTruth[k] == ' '
    ensures !EvaluateResponse(groundTruth, ParseModelResponse(response))
  {
  }

  /**
   * An answer that normalises to the ground truth scores true, whatever
   * whitespace other than spaces surrounds it.
   */
  lemma NormalisedAnswerScores(groundTruth: string, before: string, text: string, after: string)
    requires Text.NoEdgeSpace(groundTruth) && Normalise(text) == groundTruth
    requires forall k | 0 <= k < |before| :: IsStrippable(before[k])
    requires forall k | 0 <= k < |after| :: IsStrippable(after[k])
    ensures EvaluateResponse(groundTruth, ParseModelResponse(before + text + after))
  {
    var s := before + text + after;
    NormaliseSpaces(before);
    NormaliseSpaces(after);
    NormaliseAt(before);
    NormaliseAt(after);
    NormaliseAt(s);
    NormaliseAt(text);
    assert Normalise(s) == Normalise(before) + groundTruth + Normalise(after);
    Text.StripPadded(Normalise(before), groundTruth, Normalise(after));
  }
}

=== FILE: wrappers.dfy ===
/** Optional values and results with an error, as the scripts use `None` and exceptions. */
module Wrappers {

  /** A value that may be absent (Python's `None`). */
  datatype Option<+T> = None | Some(value: T)

  /** The outcome of an operation that either returns a value or raises an exception. */
  datatype Result<+R, +E> = Success(value: R) | Failure(error: E)
}
